=== FILE: README.md ===
# powerbulb, modelled in Dafny

powerbulb drives a LIFX bulb from ANT+ sensor readings. A bicycle power meter
or a heart-rate strap broadcasts frames. Each accepted frame is decoded into
a reading and pushed onto a value stream. The stream completes itself after
30 s without a reading. A controller buffers the readings into 1000 ms
windows, averages every non-empty window and looks the average up in a colour
map. It then sends the resulting colour to the bulb.

This project models that core and proves its properties:

- `interpolation.dfy` (module `Interpolation`): numpy's `interp`, used by the
  continuous colour map, over `real`. It clamps outside the sample range and
  is linear on each segment.
- `colors.dfy` (module `Colors`): `Color`, colour stops, the discrete and the
  continuous colour map, their constructors, `get_color`, `_create_color_map`
  and the FTP and heart-rate zone factories.
- `net.dfy` (module `Net`): power and heart-rate frame decoding and the
  callback's `process`. It also holds `TimeoutSubject` on a virtual clock,
  given as a pure state machine (`Step`, `Run`) and a class whose methods
  follow it. The data source factory and the device type table are here too.
- `controller.dfy` (module `Controller`): the window filter and mean, the
  colours a run of windows produces, and `PowerBulbController` with its
  subscription and `_update`.
- `bulb.dfy` (module `Bulb`): `to_hsbk` and the bulb as a log of the colours
  it was sent.
- `wrappers.dfy` (module `Wrappers`): `Option` and `Result`.

The continuous map clamps outside its stops. powerbulb/colors.py:72-75 calls
`np.interp` without `left`/`right`, which returns the boundary values there,
and `test_can_get_extrapolated_colors` (powerbulb/colors_tests.py:130-138)
compares against `np.interp` itself. The model clamps (`Interpolation.InterpClamps`,
`Interpolation.InterpWithinSamples`, `Colors.ContinuousClamps`).

## Model

| member | source | states |
|---|---|---|
| `Colors.NewDiscreteColorMap` | powerbulb/colors.py:39-41 | an empty stop list fails with `EmptyColorStops` and builds nothing; otherwise the map holds the stops as given |
| `Colors.DiscreteIndex` | powerbulb/colors.py:44-53 | the stop the discrete lookup selects: stop 0 is always taken; every later stop up to the selected one has a bound at most the value; the next stop, if any, has a bound above it |
| `Colors.DiscreteIndexUnique` | powerbulb/colors.py:50-52 | exactly one index has those properties, so the lookup is fully determined by them |
| `Colors.DiscreteGetColor` | powerbulb/colors.py:43-53 | the loop with its first-stop case and its `break` returns the colour of the stop `DiscreteIndex` selects |
| `Colors.DiscreteColorIsAStop` | powerbulb/colors.py:44-53 | the result is always the colour of one of the stops; with ascending stops, a value below the first bound gives the first colour |
| `Colors.DiscreteLastAtMost` | powerbulb/colors.py:50-52 | with ascending stops the selected stop is the last one whose bound is at most the value (a bound equal to the value wins); every later bound exceeds the value; at or beyond the last bound the last stop is selected |
| `Colors.DiscreteIndexMonotone` | powerbulb/colors.py:50-51 | a larger value never selects an earlier stop |
| `Colors.DiscreteExamples` | powerbulb/colors_tests.py:63-89 | stops at 0, 3, 5: 0, 1 and 2 give the first colour, 3 and 4 the second, 5 the third; stops at 0, 1: -1 gives the first colour and 3 the second |
| `Colors.NewContinuousColorMap` | powerbulb/colors.py:57-69 | an empty stop list fails with `EmptyColorStops`; otherwise the five lists each have one entry per stop, and entry i comes from stop i |
| `Colors.ColumnsRoundTrip` | powerbulb/colors.py:59-69 | the five lists lose nothing: zipping them gives back the stops |
| `Colors.ContinuousGetColor` | powerbulb/colors.py:71-76 | definition (no ensures of its own): each of the four channels is `Interpolation.Interp` of the value over the stop values and that channel's list; `Colors.ContinuousAtStop`, `Colors.ContinuousBetweenStops` and `Colors.ContinuousClamps` state what it returns |
| `Colors.ContinuousAtStop` | powerbulb/colors.py:71-76 | at a stop's value the continuous map returns exactly that stop's colour |
| `Colors.ContinuousBetweenStops` | powerbulb/colors.py:71-76 | between adjacent stops every channel is, independently, the linear interpolation of the two stops' channels |
| `Colors.ContinuousClamps` | powerbulb/colors.py:72-75 | below the first stop every channel is the first stop's; at or above the last stop every channel is the last stop's |
| `Colors.GetColor` | powerbulb/colors.py:43-76 | `get_color` on either kind of map returns the stepwise colour or the interpolated colour |
| `Colors.ColorAt` | powerbulb/colors.py:43-76 | definition (no ensures of its own): the colour `get_color` returns, the colour of the stop `Colors.DiscreteIndex` selects for a discrete map and `Colors.ContinuousGetColor` for a continuous one; `Colors.GetColor` is proved to return it |
| `Colors.BuiltMapIsInterpolable` | powerbulb/colors.py:57-75 | a discrete map from non-empty stops, or a continuous map from strictly ascending stops, is one `get_color` is defined on |
| `Colors.CreateColorMap` | powerbulb/colors.py:79-85 | `'discrete'` builds the discrete map, `'continuous'` the continuous one, any other kind fails with `UnknownKind` before any stop is looked at |
| `Colors.FtpStopsAscend` | powerbulb/colors.py:101-108 | the six FTP zone bounds ascend for a non-negative FTP, strictly for a positive one |
| `Colors.HrStopsAscend` | powerbulb/colors.py:126-134 | the seven heart-rate zone bounds ascend for a non-negative maximum heart rate, strictly for a positive one |
| `Colors.CreateFtpColorMap` | powerbulb/colors.py:88-109 | stops at 0, 0.56, 0.76, 0.90, 1.06, 1.21 × FTP with the fixed zone colours, as either kind; an unknown kind fails; for a positive FTP the map is one `get_color` is defined on |
| `Colors.CreateHrColorMap` | powerbulb/colors.py:112-135 | stops at 0, 0.60, 0.65, 0.75, 0.82, 0.89, 0.94 × maximum heart rate with the fixed zone colours, as either kind; an unknown kind fails; for a positive rate the map is one `get_color` is defined on |
| `Interpolation.Interp` | powerbulb/colors.py:72-75 | definition (no ensures of its own) of numpy's `interp` with default `left`/`right`: the first value below the first sample point, the last value at or above the last, otherwise the straight line on the segment that holds the point; the lemmas below state its properties |
| `Interpolation.InterpOnSegment` | powerbulb/colors.py:72-75 | inside a segment of strictly ascending sample points, `np.interp` is the straight line through the segment's end points |
| `Interpolation.InterpAtSample` | powerbulb/colors.py:72-75 | at a sample point `np.interp` returns that sample's value exactly |
| `Interpolation.InterpClamps` | powerbulb/colors.py:72-75 | at or below the first sample point the first value, at or above the last the last value: no extrapolation |
| `Interpolation.InterpWithinSamples` | powerbulb/colors.py:72-75 | the result always lies between the least and the greatest sample value |
| `Bulb.ToHsbk` | powerbulb/bulb.py:22-24 | the conversion yields exactly four channels |
| `Bulb.ToHsbkChannels` | powerbulb/bulb.py:22-24 | the four outputs are hue, saturation, brightness, kelvin in that order, each × 65535 |
| `Bulb.HsbkRoundTrip` | powerbulb/bulb.py:22-24 | dividing by 65535 recovers the colour, and scaling a recovered colour gives back the channels |
| `Bulb.ToHsbkRange` | powerbulb/bulb.py:24 | a channel in [0, 1] lands in [0, 65535]; 0 maps to 0 and 1 to 65535 |
| `Bulb.KelvinScaledLikeOtherChannels` | powerbulb/bulb.py:24 | kelvin is scaled by 65535 like the rest, so the grey and white zones come out above the 9000 K the bulb documents |
| `Bulb.LightBulb.SetColor` | powerbulb/bulb.py:37-48 | the bulb is sent exactly the given colour, after those sent before |
| `Net.CanDecode` | powerbulb/net.py:71-72 | a heart-rate frame is always accepted |
| `Net.FrameAccepted` | powerbulb/net.py:53-54 | a power frame is accepted iff payload byte 1, the page number after the channel number, is 0x10; every heart-rate frame is accepted |
| `Net.Int16` | powerbulb/net.py:67 | two bytes read low byte first as signed 16-bit: the result is in [-32768, 32767], agrees with the raw value modulo 65536, and is negative iff the high byte is at least 0x80 |
| `Net.Int16RoundTrip` | powerbulb/net.py:67 | reading and encoding a signed 16-bit value are inverse to each other |
| `Net.Decode` | powerbulb/net.py:56-83 | power comes from the last two bytes and lies in [-32768, 32767]; heart rate is the last byte and lies in [0, 255] |
| `Net.PowerDecodesEncoded` | powerbulb/net.py:56-67 | a frame whose last two bytes encode a power decodes to that power, whatever precedes them |
| `Net.Arm` | powerbulb/net.py:110-114 | definition (no ensures of its own) of `_reset`: the current timer, if any, is disposed and a live timer due `TIMEOUT_MS` from now becomes current; `Net.PushRearms` states it |
| `Net.Forward` | powerbulb/net.py:108 | definition (no ensures of its own) of the inherited `on_next`: subscribers see the value unless the subject has completed |
| `Net.Complete` | powerbulb/net.py:116-118 | definition (no ensures of its own) of `_timeout`: the subject completes and subscribers see one completion; a completed subject ignores it |
| `Net.Step` | powerbulb/net.py:106-118 | definition (no ensures of its own): a push is `_reset` then forwarding; advancing the clock past the timer's due time reschedules the periodic timer and calls `_timeout`; `Net.StepKeepsValid`, `Net.SilenceCompletes`, `Net.TimeoutAfterPush` and `Net.StoppedIsFinal` state its properties |
| `Net.NextDue` | powerbulb/net.py:113-114 | a periodic timer that fired is next due at the first multiple of the period after the current time |
| `Net.InitialStateValid` | powerbulb/net.py:100-104 | a new subject has one live timer due at 30 000 ms and has told its subscribers nothing |
| `Net.StepKeepsValid` | powerbulb/net.py:106-118 | every push and every clock step keeps exactly one live timer, and subscribers see values then at most one final completion |
| `Net.RunKeepsValid` | powerbulb/net.py:106-118 | the same holds over any sequence of pushes and clock steps |
| `Net.PushRearms` | powerbulb/net.py:106-114 | a push disposes the current timer, arms a new one due 30 000 ms after the push, then forwards the value unless the subject has completed |
| `Net.SilenceCompletes` | powerbulb/net.py:98-118 | with no pushes, the subject completes exactly when the clock reaches the timer armed by the last push; the completion is signalled once, and is not an error |
| `Net.TimeoutAfterPush` | powerbulb/net.py:98-118 | after a push followed by a silence of `ms`, the subject has completed iff `ms` ≥ 30 000 |
| `Net.StoppedIsFinal` | powerbulb/net.py:116-118 | once completed, nothing more reaches subscribers, whatever is pushed |
| `Net.TimeoutSubject.constructor` | powerbulb/net.py:100-104 | construction arms the first timer |
| `Net.TimeoutSubject.OnNext` | powerbulb/net.py:106-108 | `on_next` re-arms the timer, then forwards the value |
| `Net.TimeoutSubject.Reset` | powerbulb/net.py:110-114 | `_reset` disposes any previous timer and arms a fresh one |
| `Net.TimeoutSubject.Timeout` | powerbulb/net.py:116-118 | `_timeout` completes the subject |
| `Net.TimeoutSubject.AdvanceBy` | powerbulb/net.py:113-114 | the scheduler fires the timer when the clock reaches it |
| `Net.AntDataSource.constructor` | powerbulb/net.py:87-94 | a data source owns a fresh value stream and a callback of its own kind that pushes onto it |
| `Net.AntChannelEventCallback.constructor` | powerbulb/net.py:32-33 | the callback keeps the source it pushes onto; its kind stands for the power or heart-rate subclass (powerbulb/net.py:52, 70) |
| `Net.AntChannelEventCallback.Process` | powerbulb/net.py:41-49 | non-broadcast messages and frames that fail `can_decode` are dropped; otherwise exactly one value, the decoded reading, is pushed onto the source's stream |
| `Net.CreateDataSource` | powerbulb/net.py:121-142 | `'hr'` gives a heart-rate source, `'power'` a power source, any other type fails with `UnsupportedDeviceType`; the new source has a fresh stream in its initial state and a fresh callback of its own kind that pushes onto that stream |
| `Net.GetDeviceType` | powerbulb/net.py:172-178 | only the names `'hr'` and `'power'` are translated; every other input comes back unchanged |
| `Net.DeviceTypeTable` | powerbulb/net.py:149-178 | `'hr'` → 120 and `'power'` → 11, the numbers the heart-rate and power channels are created with; translating twice changes nothing |
| `Controller.NonEmpty` | powerbulb/controller.py:33 | definition (no ensures of its own) of the `where` filter: a window goes on iff it holds a reading |
| `Controller.Mean` | powerbulb/controller.py:34 | definition (no ensures of its own) of the `select` projection, `float(sum(x)) / len(x)`; `Controller.MeanBetween` and `Controller.MeanExamples` state its properties |
| `Controller.WindowUpdate` | powerbulb/controller.py:31-35 | definition (no ensures of its own): one window yields the colour of its mean, or nothing when empty |
| `Controller.Updates` | powerbulb/controller.py:31-35 | definition (no ensures of its own): the colours a run of windows yields, in window order; `Controller.UpdatesAppend`, `Controller.OneUpdatePerNonEmptyWindow` and `Controller.SingleReadingWindows` state its properties |
| `Controller.MeanBetween` | powerbulb/controller.py:34 | the mean of a window lies within the range of its readings |
| `Controller.MeanExamples` | powerbulb/controller_tests.py:58-65 | a one-reading window averages to its reading; 1, 2, 3 average to 2 |
| `Controller.UpdatesAppend` | powerbulb/controller.py:31-35 | consecutive runs of windows produce their colours one after the other, in order |
| `Controller.OneUpdatePerNonEmptyWindow` | powerbulb/controller.py:33-35 | exactly one colour per non-empty window; windows that are all empty produce no colour |
| `Controller.SingleReadingWindows` | powerbulb/controller_tests.py:41-56 | windows v1, v2, v3, … of one reading each produce the colours for v1, v2, v3, … in that order |
| `Controller.PowerBulbController.constructor` | powerbulb/controller.py:23-28 | a new controller holds its bulb and map and has no subscription |
| `Controller.PowerBulbController.Enter` | powerbulb/controller.py:30-35 | entering sets a live subscription |
| `Controller.PowerBulbController.Exit` | powerbulb/controller.py:37-38 | exiting disposes the subscription |
| `Controller.PowerBulbController.Update` | powerbulb/controller.py:40-42 | the bulb is sent exactly the colour the map gives for the value |
| `Controller.PowerBulbController.OnWindow` | powerbulb/controller.py:31-35 | while subscribed, a non-empty window sends the colour of its mean, and an empty one sends nothing and fails on nothing; after exit nothing is sent |
| `Controller.PowerBulbController.OnWindows` | powerbulb/controller.py:31-35 | while subscribed, a run of windows sends exactly the colours of its non-empty windows' means, in order; after exit nothing |
| `Controller.Session` | powerbulb/controller_tests.py:41-78 | on the map with stops 1, 2, 3: windows [1], [2], [3] send the three colours in turn, [1, 2, 3] sends the colour of its mean 2, empty windows send nothing, and after exit a window [1] sends nothing |

## Left out

- `ColorMap.save` and `ColorMap.load` (powerbulb/colors.py:25-32): file I/O through jsonpickle, whose format is not part of this model.
- The radio: `AntChannelFactory.create`, `create_bike_power`, `create_heart_rate` and `AntNodeFactory.create` (powerbulb/net.py:149-188) drive the ANT USB stick through the python-ant SDK. `registerCallback` and the `channel` argument of the data sources are foreign calls too. The numbers 11 and 120 that those functions pass are stated in `Net.DeviceTypeTable`.
- `LifxLightBulb`, with `get_power`, `turn_on`, `turn_off` and `set_color` (powerbulb/bulb.py:51-70), talks to the bulb over the LAN through lifxlan. The bulb is modelled as the log of colours `set_color` receives.
- Wall-clock windowing: Rx's `buffer_with_time` slicing is not modelled. Windows are given as lists of readings, one per `BUFFER_TIME_MS` slice. The controller's `source` and `scheduler` arguments are therefore absent. Nothing links the stream's observed values to those windows.
- The timeout scheduler's thread timer is replaced by a virtual clock (`AdvanceBy`). The timer stays periodic after it fires, as `schedule_periodic` keeps it. Its later firings call `on_completed` on a completed subject. The model assumes the Rx `Subject` ignores those, and ignores `on_next` after completion; that class's source is not part of this model.
- Threads: `process`, and through it `on_next` and `_reset`, runs on the ANT receive loop, while `_timeout` runs on the `TimeoutScheduler`'s timer thread. The model puts every push and every clock step into one sequence. Interleavings of the two threads, and races between them, are not modelled.
- Errors raised on the stream by the protocol layer are not modelled.
- Floating point: colour channels, stop bounds and window means are `real`. `float(sum)/len` is exact division.
- `struct.unpack('h', …)` uses the host's byte order. The model reads low byte first, as on little-endian hosts.
- The default `kind='discrete'` of `create_ftp_color_map` and `create_hr_color_map` (powerbulb/colors.py:88, 112): `Colors.CreateFtpColorMap` and `Colors.CreateHrColorMap` always take the kind explicitly, as the command-line programs create_ftp_color_map.py and create_hr_color_map.py pass it.
- Logging throughout, and the command-line programs (app.py, sweep_color_map.py, create_ftp_color_map.py, create_hr_color_map.py).
- `Net.Decode` and `Net.AntChannelEventCallback.Process` require a payload long enough for the decoder's indexing: two bytes for power, one for heart rate. On a shorter payload the source raises: power `can_decode` raises `IndexError` (powerbulb/net.py:54), `struct.unpack` raises `struct.error` (powerbulb/net.py:67), and heart-rate `decode` raises `IndexError` (powerbulb/net.py:83) after `can_decode` has accepted the frame. `Net.CanDecode` requires two bytes for power only; heart-rate `can_decode` accepts any payload, the empty one included. The python-ant broadcast payload is always the channel number plus eight data bytes.
- `Colors.GetColor`, `Colors.ContinuousBetweenStops`, `Colors.ContinuousAtStop` and `Colors.ContinuousClamps` require strictly ascending stop values for a continuous map. numpy leaves `interp` undefined for non-ascending sample points, so the model does not give them a value.
- `Controller.PowerBulbController.Exit` requires an earlier `Enter`. In the source, `__exit__` without `__enter__` raises `AttributeError` on `None`, which a `with` block never does.

=== FILE: bulb.dfy ===
/**
 * The light bulb as the controller sees it: a sink for colours, and the
 * conversion of a normalised colour into the bulb's 16-bit HSBK channels.
 */
module Bulb {
  import opened Colors

  /** The full scale of one HSBK channel on the bulb. */
  const HSBK_MAX: real := 65535.0

  /** The four channels of a colour, in the order hue, saturation, brightness, kelvin. */
  function Channels(c: Color): (values: seq<real>)
    ensures |values| == 4
  {
    [c.hue, c.saturation, c.brightness, c.kelvin]
  }

  /** `to_hsbk`: every channel, kelvin included, multiplied by 65535. */
  function ToHsbk(color: Color): (hsbk: seq<real>)
    ensures |hsbk| == 4
  {
    var values := Channels(color);
    seq(4, i requires 0 <= i < 4 => values[i] * HSBK_MAX)
  }

  /** The inverse of `ToHsbk`: every channel divided by 65535. */
  function FromHsbk(hsbk: seq<real>): Color
    requires |hsbk| == 4
  {
    Color(hsbk[0] / HSBK_MAX, hsbk[1] / HSBK_MAX, hsbk[2] / HSBK_MAX, hsbk[3] / HSBK_MAX)
  }

  /** The output keeps the channel order and scales each channel by the same factor. */
  lemma ToHsbkChannels(c: Color)
    ensures ToHsbk(c) == [c.hue * 65535.0, c.saturation * 65535.0, c.brightness * 65535.0, c.kelvin * 65535.0]
  {
  }

  /** Scaling loses nothing: the colour can be recovered from its HSBK channels and back. */
  lemma HsbkRoundTrip(c: Color, hsbk: seq<real>)
    requires |hsbk| == 4
    ensures FromHsbk(ToHsbk(c)) == c
    ensures ToHsbk(FromHsbk(hsbk)) == hsbk
  {
    assert ToHsbk(FromHsbk(hsbk))[3] == hsbk[3];
  }

  /** A channel in [0, 1] lands in the bulb's [0, 65535]; 0 and 1 land on the ends. */
  lemma ToHsbkRange(c: Color, i: nat)
    requires i < 4
    ensures 0.0 <= Channels(c)[i] <= 1.0 ==> 0.0 <= ToHsbk(c)[i] <= HSBK_MAX
    ensures Channels(c)[i] == 0.0 ==> ToHsbk(c)[i] == 0.0
    ensures Channels(c)[i] == 1.0 ==> ToHsbk(c)[i] == HSBK_MAX
  {
  }

  /**
   * The kelvin channel is scaled like the other three, not into the
   * 2500–9000 K span the bulb documents: the canonical grey and white zones
   * come out above 9000.
   */
  lemma KelvinScaledLikeOtherChannels()
    ensures ToHsbk(Grey)[3] > 9000.0 && ToHsbk(White)[3] > 9000.0
    ensures ToHsbk(Red)[3] == 0.06 * HSBK_MAX
  {
  }

  /** The device sink: it records every colour `set_color` was given, in order. */
  class LightBulb {
    var colors: seq<Color>

    constructor ()
      ensures colors == []
    {
      colors := [];
    }

    method SetColor(color: Color)
      modifies this
      ensures colors == old(colors) + [color]
    {
      colors := colors + [color];
    }
  }
}

=== FILE: colors.dfy ===
/**
 * Colour maps: a value (watts, beats per minute) is turned into a four-channel
 * colour, either stepwise (the discrete map) or by per-channel linear
 * interpolation (the continuous map), plus the canonical FTP and heart-rate
 * zone maps.
 */
module Colors {
  import opened Wrappers
  import opened Interpolation

  /** A colour of four real channels; the zone factories use values in [0, 1], which the bulb rescales. */
  datatype Color = Color(hue: real, saturation: real, brightness: real, kelvin: real)

  /** A `(value, colour)` pair: the colour starts at `lower`. */
  datatype ColorStop = ColorStop(lower: real, color: Color)

  datatype ColorMap =
    | DiscreteColorMap(colorStops: seq<ColorStop>)
    | ContinuousColorMap(values: seq<real>, hue: seq<real>, saturation: seq<real>,
                         brightness: seq<real>, kelvin: seq<real>)
  {
    /** What every constructor establishes: at least one stop, parallel lists of equal length. */
    predicate Valid() {
      match this
      case DiscreteColorMap(stops) => |stops| > 0
      case ContinuousColorMap(values, h, s, b, k) =>
        0 < |values| && |h| == |values| && |s| == |values| && |b| == |values| && |k| == |values|
    }

    /**
     * A map `get_color` is defined on: for the continuous map, the stop
     * values must also be strictly ascending (duplicate stop values are left
     * to the caller, as numpy leaves them).
     */
    predicate Interpolable() {
      Valid() && (ContinuousColorMap? ==> StrictlyAscending(values))
    }
  }

  datatype ColorMapError = EmptyColorStops | UnknownKind(kind: string)

  /** Stop values listed one after the other never decrease. */
  predicate Ascending(stops: seq<ColorStop>) {
    forall i :: 0 < i < |stops| ==> stops[i - 1].lower <= stops[i].lower
  }

  /** The stop values of `stops`, in order. */
  function Lowers(stops: seq<ColorStop>): (xs: seq<real>)
    ensures |xs| == |stops| && forall i :: 0 <= i < |stops| ==> xs[i] == stops[i].lower
  {
    seq(|stops|, i requires 0 <= i < |stops| => stops[i].lower)
  }

  lemma {:induction false} StopsAscendBetween(stops: seq<ColorStop>, i: nat, j: nat)
    requires Ascending(stops)
    requires i <= j < |stops|
    ensures stops[i].lower <= stops[j].lower
    decreases j - i
  {
    if i < j {
      StopsAscendBetween(stops, i + 1, j);
    }
  }

  // ----- Discrete colour map -----

  method NewDiscreteColorMap(colorStops: seq<ColorStop>) returns (r: Result<ColorMap, ColorMapError>)
    ensures r.Err? <==> |colorStops| == 0
    ensures r.Err? ==> r.error == EmptyColorStops
    ensures r.Ok? ==> r.value == DiscreteColorMap(colorStops) && r.value.Valid()
  {
    if |colorStops| == 0 {
      return Err(EmptyColorStops);
    }
    return Ok(DiscreteColorMap(colorStops));
  }

  /**
   * The index of the stop whose colour the discrete map returns: stop 0 is
   * always taken, and the scan then moves on through every following stop
   * whose value is at most `value`, stopping at the first one above it.
   */
  function DiscreteIndex(stops: seq<ColorStop>, value: real): (k: nat)
    requires |stops| > 0
    ensures k < |stops|
    ensures forall j :: 1 <= j <= k ==> stops[j].lower <= value
    ensures k + 1 < |stops| ==> value < stops[k + 1].lower
  {
    if |stops| == 1 || value < stops[1].lower then 0
    else 1 + DiscreteIndex(stops[1..], value)
  }

  /** The scan's stopping point is the only index with the two properties above. */
  lemma DiscreteIndexUnique(stops: seq<ColorStop>, value: real, k: nat)
    requires k < |stops|
    requires forall j :: 1 <= j <= k ==> stops[j].lower <= value
    requires k + 1 < |stops| ==> value < stops[k + 1].lower
    ensures DiscreteIndex(stops, value) == k
  {
  }

  /** `DiscreteColorMap.get_color`: the first stop's colour, overwritten while the stops do not exceed `value`. */
  method DiscreteGetColor(colorStops: seq<ColorStop>, value: real) returns (result: Color)
    requires |colorStops| > 0
    ensures result == colorStops[DiscreteIndex(colorStops, value)].color
  {
    // the source starts from None and takes stop 0's colour on the first pass
    var k: nat := 0;
    result := colorStops[0].color;
    for i := 0 to |colorStops|
      invariant i == 0 || (k == i - 1 && result == colorStops[k].color)
      invariant forall j :: 1 <= j < i ==> colorStops[j].lower <= value
    {
      var ColorStop(lower, colour) := colorStops[i];
      if i == 0 {
        k, result := 0, colour;
        continue;
      }
      if lower > value {
        break;
      }
      k, result := i, colour;
    }
    DiscreteIndexUnique(colorStops, value, k);
  }

  /** The discrete map always answers with the colour of one of its stops. */
  lemma DiscreteColorIsAStop(stops: seq<ColorStop>, value: real)
    requires |stops| > 0
    ensures exists i :: 0 <= i < |stops| && stops[DiscreteIndex(stops, value)].color == stops[i].color
    ensures value < stops[0].lower && Ascending(stops) ==> DiscreteIndex(stops, value) == 0
  {
    var k := DiscreteIndex(stops, value);
    assert 0 <= k < |stops| && stops[k].color == stops[k].color;
    if 0 < k && Ascending(stops) {
      assert stops[0].lower <= stops[1].lower <= value;
    }
  }

  /**
   * With ascending stops the discrete map picks the LAST stop whose value is
   * at most `value` (a stop equal to `value` wins; later stops with the same
   * value win over earlier ones); below the first stop it clamps to the first
   * colour, at or above the last stop to the last colour.
   */
  lemma DiscreteLastAtMost(stops: seq<ColorStop>, value: real)
    requires |stops| > 0 && Ascending(stops)
    ensures var k := DiscreteIndex(stops, value);
      && (stops[0].lower <= value ==> stops[k].lower <= value)
      && (forall j :: k < j < |stops| ==> value < stops[j].lower)
      && (value >= stops[|stops| - 1].lower ==> k == |stops| - 1)
  {
    var k := DiscreteIndex(stops, value);
    forall j | k < j < |stops|
      ensures value < stops[j].lower
    {
      StopsAscendBetween(stops, k + 1, j);
    }
  }

  /** A larger value never selects an earlier stop. */
  lemma DiscreteIndexMonotone(stops: seq<ColorStop>, v1: real, v2: real)
    requires |stops| > 0 && v1 <= v2
    ensures DiscreteIndex(stops, v1) <= DiscreteIndex(stops, v2)
  {
  }

  /**
   * Stops at 0, 3 and 5: values 0 to 2 give the first colour, 3 and 4 the
   * second, 5 the third. Stops at 0 and 1: -1, below every stop, gives the
   * first colour and 3, beyond every stop, the second.
   */
  lemma DiscreteExamples(a: Color, b: Color, c: Color)
    ensures var stops := [ColorStop(0.0, a), ColorStop(3.0, b), ColorStop(5.0, c)];
      && DiscreteIndex(stops, 0.0) == 0 && DiscreteIndex(stops, 1.0) == 0 && DiscreteIndex(stops, 2.0) == 0
      && DiscreteIndex(stops, 3.0) == 1 && DiscreteIndex(stops, 4.0) == 1
      && DiscreteIndex(stops, 5.0) == 2
    ensures var stops := [ColorStop(0.0, a), ColorStop(1.0, b)];
      && DiscreteIndex(stops, -1.0) == 0 && DiscreteIndex(stops, 3.0) == 1
  {
  }

  // ----- Continuous colour map -----

  /** `m` holds the five parallel lists split out of `stops`, entry i from stop i. */
  predicate ColumnsOf(m: ColorMap, stops: seq<ColorStop>) {
    && m.ContinuousColorMap?
    && |m.values| == |stops| && |m.hue| == |stops| && |m.saturation| == |stops|
    && |m.brightness| == |stops| && |m.kelvin| == |stops|
    && forall i :: 0 <= i < |stops| ==>
         && m.values[i] == stops[i].lower
         && m.hue[i] == stops[i].color.hue
         && m.saturation[i] == stops[i].color.saturation
         && m.brightness[i] == stops[i].color.brightness
         && m.kelvin[i] == stops[i].color.kelvin
  }

  /** `ContinuousColorMap.__init__`: one pass over the stops, appending to the five lists. */
  method NewContinuousColorMap(colorStops: seq<ColorStop>) returns (r: Result<ColorMap, ColorMapError>)
    ensures r.Err? <==> |colorStops| == 0
    ensures r.Err? ==> r.error == EmptyColorStops
    ensures r.Ok? ==> r.value.Valid() && ColumnsOf(r.value, colorStops)
  {
    if |colorStops| == 0 {
      return Err(EmptyColorStops);
    }
    var values, hue, saturation, brightness, kelvin := [], [], [], [], [];
    for i := 0 to |colorStops|
      invariant |values| == i && |hue| == i && |saturation| == i && |brightness| == i && |kelvin| == i
      invariant forall j :: 0 <= j < i ==>
        && values[j] == colorStops[j].lower
        && hue[j] == colorStops[j].color.hue
        && saturation[j] == colorStops[j].color.saturation
        && brightness[j] == colorStops[j].color.brightness
        && kelvin[j] == colorStops[j].color.kelvin
    {
      var ColorStop(value, color) := colorStops[i];
      values := values + [value];
      hue := hue + [color.hue];
      saturation := saturation + [color.saturation];
      brightness := brightness + [color.brightness];
      kelvin := kelvin + [color.kelvin];
    }
    return Ok(ContinuousColorMap(values, hue, saturation, brightness, kelvin));
  }

  /** The stops a continuous map was built from, zipped back out of its five lists. */
  function StopsOf(m: ColorMap): (stops: seq<ColorStop>)
    requires m.ContinuousColorMap? && m.Valid()
  {
    seq(|m.values|, i requires 0 <= i < |m.values| =>
      ColorStop(m.values[i], Color(m.hue[i], m.saturation[i], m.brightness[i], m.kelvin[i])))
  }

  /** Splitting the stops into columns loses nothing: they can be zipped back. */
  lemma ColumnsRoundTrip(m: ColorMap, stops: seq<ColorStop>)
    requires ColumnsOf(m, stops)
    ensures m.Valid() == (|stops| > 0)
    ensures |stops| > 0 ==> StopsOf(m) == stops
  {
  }

  /** `ContinuousColorMap.get_color`: each channel interpolated on its own. */
  function ContinuousGetColor(m: ColorMap, value: real): Color
    requires m.ContinuousColorMap? && m.Interpolable()
  {
    Color(Interp(value, m.values, m.hue),
          Interp(value, m.values, m.saturation),
          Interp(value, m.values, m.brightness),
          Interp(value, m.values, m.kelvin))
  }

  /** At a stop's value the continuous map returns exactly that stop's colour. */
  lemma ContinuousAtStop(m: ColorMap, stops: seq<ColorStop>, i: nat)
    requires ColumnsOf(m, stops) && m.Interpolable() && i < |stops|
    ensures ContinuousGetColor(m, stops[i].lower) == stops[i].color
  {
    InterpAtSample(m.values, m.hue, i);
    InterpAtSample(m.values, m.saturation, i);
    InterpAtSample(m.values, m.brightness, i);
    InterpAtSample(m.values, m.kelvin, i);
  }

  /** The straight line between two colours, channel by channel. */
  function LerpColor(x: real, x0: real, x1: real, c0: Color, c1: Color): Color
    requires x0 < x1
  {
    Color(Lerp(x, x0, x1, c0.hue, c1.hue),
          Lerp(x, x0, x1, c0.saturation, c1.saturation),
          Lerp(x, x0, x1, c0.brightness, c1.brightness),
          Lerp(x, x0, x1, c0.kelvin, c1.kelvin))
  }

  /** Between two adjacent stops each channel is the linear interpolation of its neighbours. */
  lemma ContinuousBetweenStops(m: ColorMap, stops: seq<ColorStop>, i: nat, value: real)
    requires ColumnsOf(m, stops) && m.Interpolable()
    requires i + 1 < |stops| && stops[i].lower <= value <= stops[i + 1].lower
    ensures stops[i].lower < stops[i + 1].lower
    ensures ContinuousGetColor(m, value)
         == LerpColor(value, stops[i].lower, stops[i + 1].lower, stops[i].color, stops[i + 1].color)
  {
    InterpOnSegment(value, m.values, m.hue, i);
    InterpOnSegment(value, m.values, m.saturation, i);
    InterpOnSegment(value, m.values, m.brightness, i);
    InterpOnSegment(value, m.values, m.kelvin, i);
  }

  /** Outside the stop range every channel is that of the nearest boundary stop. */
  lemma ContinuousClamps(m: ColorMap, stops: seq<ColorStop>, value: real)
    requires ColumnsOf(m, stops) && m.Interpolable()
    ensures value <= stops[0].lower ==> ContinuousGetColor(m, value) == stops[0].color
    ensures value >= stops[|stops| - 1].lower ==> ContinuousGetColor(m, value) == stops[|stops| - 1].color
  {
    InterpClamps(value, m.values, m.hue);
    InterpClamps(value, m.values, m.saturation);
    InterpClamps(value, m.values, m.brightness);
    InterpClamps(value, m.values, m.kelvin);
  }

  // ----- Both kinds -----

  /** The colour `get_color` returns, for either kind of map. */
  function ColorAt(m: ColorMap, value: real): Color
    requires m.Interpolable()
  {
    match m
    case DiscreteColorMap(stops) => stops[DiscreteIndex(stops, value)].color
    case ContinuousColorMap(_, _, _, _, _) => ContinuousGetColor(m, value)
  }

  /** `get_color`, dispatched on the kind of map. */
  method GetColor(m: ColorMap, value: real) returns (color: Color)
    requires m.Interpolable()
    ensures color == ColorAt(m, value)
  {
    match m
    case DiscreteColorMap(stops) =>
      color := DiscreteGetColor(stops, value);
    case ContinuousColorMap(_, _, _, _, _) =>
      color := ContinuousGetColor(m, value);
  }

  /** A discrete map built from any non-empty stops, or a continuous map built from strictly ascending stops, is one `get_color` is defined on. */
  lemma BuiltMapIsInterpolable(m: ColorMap, stops: seq<ColorStop>)
    requires |stops| > 0
    requires m == DiscreteColorMap(stops) || (ColumnsOf(m, stops) && StrictlyAscending(Lowers(stops)))
    ensures m.Interpolable()
  {
    if m.ContinuousColorMap? {
      assert m.values == Lowers(stops);
    }
  }

  /** `_create_color_map`: the kind string selects the constructor. */
  method CreateColorMap(stops: seq<ColorStop>, kind: string) returns (r: Result<ColorMap, ColorMapError>)
    ensures kind != "discrete" && kind != "continuous" ==> r == Err(UnknownKind(kind))
    ensures kind == "discrete" ==>
      r == if |stops| == 0 then Err(EmptyColorStops) else Ok(DiscreteColorMap(stops))
    ensures kind == "continuous" ==>
      if |stops| == 0 then r == Err(EmptyColorStops) else r.Ok? && r.value.Valid() && ColumnsOf(r.value, stops)
  {
    if kind == "discrete" {
      r := NewDiscreteColorMap(stops);
    } else if kind == "continuous" {
      r := NewContinuousColorMap(stops);
    } else {
      r := Err(UnknownKind(kind));
    }
  }

  // ----- Canonical zone maps -----

  const White := Color(0.08, 0.0, 1.0, 0.18)
  const Grey := Color(0.08, 0.0, 1.0, 0.14)
  const Blue := Color(0.66, 1.0, 1.0, 0.14)
  const Green := Color(0.32, 1.0, 1.0, 0.14)
  const Yellow := Color(0.17, 1.0, 1.0, 0.14)
  const Coral := Color(0.11, 1.0, 1.0, 0.14)
  const Red := Color(0.00, 1.0, 1.0, 0.06)

  /** The six power zones as fractions of the functional threshold power. */
  function FtpColorStops(ftp: real): seq<ColorStop> {
    [ ColorStop(ftp * 0.00, Grey),
      ColorStop(ftp * 0.56, Blue),
      ColorStop(ftp * 0.76, Green),
      ColorStop(ftp * 0.90, Yellow),
      ColorStop(ftp * 1.06, Coral),
      ColorStop(ftp * 1.21, Red) ]
  }

  /** The seven heart-rate zones as fractions of the maximum heart rate. */
  function HrColorStops(heartRate: real): seq<ColorStop> {
    [ ColorStop(heartRate * 0.00, White),
      ColorStop(heartRate * 0.60, Grey),
      ColorStop(heartRate * 0.65, Blue),
      ColorStop(heartRate * 0.75, Green),
      ColorStop(heartRate * 0.82, Yellow),
      ColorStop(heartRate * 0.89, Coral),
      ColorStop(heartRate * 0.94, Red) ]
  }

  /** For a non-negative FTP the power zones ascend, strictly so for a positive one. */
  lemma FtpStopsAscend(ftp: real)
    ensures ftp >= 0.0 ==> Ascending(FtpColorStops(ftp))
    ensures ftp > 0.0 ==> StrictlyAscending(Lowers(FtpColorStops(ftp)))
  {
    var xs := Lowers(FtpColorStops(ftp));
    assert xs == [ftp * 0.00, ftp * 0.56, ftp * 0.76, ftp * 0.90, ftp * 1.06, ftp * 1.21];
  }

  /** For a non-negative maximum heart rate the heart-rate zones ascend, strictly so for a positive one. */
  lemma HrStopsAscend(heartRate: real)
    ensures heartRate >= 0.0 ==> Ascending(HrColorStops(heartRate))
    ensures heartRate > 0.0 ==> StrictlyAscending(Lowers(HrColorStops(heartRate)))
  {
    var xs := Lowers(HrColorStops(heartRate));
    assert xs == [heartRate * 0.00, heartRate * 0.60, heartRate * 0.65, heartRate * 0.75,
                  heartRate * 0.82, heartRate * 0.89, heartRate * 0.94];
  }

  /** `create_ftp_color_map`: the six power zones, built as the given kind. */
  method CreateFtpColorMap(ftp: real, kind: string) returns (r: Result<ColorMap, ColorMapError>)
    ensures r.Err? <==> kind != "discrete" && kind != "continuous"
    ensures r.Err? ==> r.error == UnknownKind(kind)
    ensures kind == "discrete" ==> r == Ok(DiscreteColorMap(FtpColorStops(ftp)))
    ensures kind == "continuous" ==> r.Ok? && ColumnsOf(r.value, FtpColorStops(ftp))
    ensures r.Ok? && ftp > 0.0 ==> r.value.Interpolable()
  {
    r := CreateColorMap(FtpColorStops(ftp), kind);
    if r.Ok? && ftp > 0.0 {
      FtpStopsAscend(ftp);
      BuiltMapIsInterpolable(r.value, FtpColorStops(ftp));
    }
  }

  /** `create_hr_color_map`: the seven heart-rate zones, built as the given kind. */
  method CreateHrColorMap(heartRate: real, kind: string) returns (r: Result<ColorMap, ColorMapError>)
    ensures r.Err? <==> kind != "discrete" && kind != "continuous"
    ensures r.Err? ==> r.error == UnknownKind(kind)
    ensures kind == "discrete" ==> r == Ok(DiscreteColorMap(HrColorStops(heartRate)))
    ensures kind == "continuous" ==> r.Ok? && ColumnsOf(r.value, HrColorStops(heartRate))
    ensures r.Ok? && heartRate > 0.0 ==> r.value.Interpolable()
  {
    r := CreateColorMap(HrColorStops(heartRate), kind);
    if r.Ok? && heartRate > 0.0 {
      HrStopsAscend(heartRate);
      BuiltMapIsInterpolable(r.value, HrColorStops(heartRate));
    }
  }
}

=== FILE: controller.dfy ===
/**
 * The controller: readings are buffered into fixed windows, every non-empty
 * window is averaged, the average is looked up in the colour map and the
 * colour is sent to the bulb, for as long as the controller is entered.
 */
module Controller {
  import opened Wrappers
  import opened Colors
  import opened Bulb

  /** The length of one buffering window, in milliseconds. */
  const BUFFER_TIME_MS: nat := 1000

  /** The sum of a window's readings, added left to right. */
  function Sum(window: seq<int>): int
    decreases |window|
  {
    if window == [] then 0 else Sum(window[..|window| - 1]) + window[|window| - 1]
  }

  /** The filter of the pipeline: only windows that received a reading go on. */
  predicate NonEmpty(window: seq<int>) {
    |window| > 0
  }

  /** The projection of the pipeline: `float(sum(x)) / len(x)`. */
  function Mean(window: seq<int>): real
    requires NonEmpty(window)
  {
    Sum(window) as real / |window| as real
  }

  lemma MulSucc(n: int, x: int)
    ensures (n + 1) * x == n * x + x
  {
  }

  lemma {:induction false} SumBetween(window: seq<int>, lo: int, hi: int)
    requires forall i :: 0 <= i < |window| ==> lo <= window[i] <= hi
    ensures |window| * lo <= Sum(window) <= |window| * hi
    decreases |window|
  {
    if window != [] {
      var n := |window| - 1;
      SumBetween(window[..n], lo, hi);
      assert Sum(window) == Sum(window[..n]) + window[n];
      MulSucc(n, lo);
      MulSucc(n, hi);
    }
  }

  lemma QuotientBetween(s: real, n: real, lo: real, hi: real)
    requires 0.0 < n && n * lo <= s <= n * hi
    ensures lo <= s / n <= hi
  {
  }

  lemma CastProduct(a: int, b: int)
    ensures (a * b) as real == a as real * b as real
  {
  }

  /** The mean of a window lies within the range of its readings. */
  lemma MeanBetween(window: seq<int>, lo: int, hi: int)
    requires NonEmpty(window)
    requires forall i :: 0 <= i < |window| ==> lo <= window[i] <= hi
    ensures lo as real <= Mean(window) <= hi as real
  {
    SumBetween(window, lo, hi);
    CastProduct(|window|, lo);
    CastProduct(|window|, hi);
    QuotientBetween(Sum(window) as real, |window| as real, lo as real, hi as real);
  }

  /** A window holding one reading averages to that reading; the mean of 1, 2, 3 is 2. */
  lemma MeanExamples(v: int)
    ensures Mean([v]) == v as real
    ensures Mean([1, 2, 3]) == 2.0
  {
    assert [1, 2, 3][..2] == [1, 2] && [1, 2][..1] == [1];
    assert [v][..0] == [];
    assert Sum([v]) == v;
  }

  /** The colour a single window produces: none for an empty window, the mean's colour otherwise. */
  function WindowUpdate(m: ColorMap, window: seq<int>): seq<Color>
    requires m.Interpolable()
  {
    if NonEmpty(window) then [ColorAt(m, Mean(window))] else []
  }

  /** The colours the bulb is sent for a run of windows, in window order. */
  function Updates(m: ColorMap, windows: seq<seq<int>>): seq<Color>
    requires m.Interpolable()
    decreases |windows|
  {
    if windows == [] then [] else WindowUpdate(m, windows[0]) + Updates(m, windows[1..])
  }

  /** Consecutive runs of windows produce their colours one after the other. */
  lemma {:induction false} UpdatesAppend(m: ColorMap, first: seq<seq<int>>, second: seq<seq<int>>)
    requires m.Interpolable()
    ensures Updates(m, first + second) == Updates(m, first) + Updates(m, second)
    decreases |first|
  {
    if first == [] {
      assert first + second == second;
    } else {
      assert (first + second)[1..] == first[1..] + second;
      UpdatesAppend(m, first[1..], second);
    }
  }

  /** The number of windows that received at least one reading. */
  function CountNonEmpty(windows: seq<seq<int>>): nat
    decreases |windows|
  {
    if windows == [] then 0 else (if NonEmpty(windows[0]) then 1 else 0) + CountNonEmpty(windows[1..])
  }

  /** Exactly one colour per non-empty window, and none for empty ones. */
  lemma {:induction false} OneUpdatePerNonEmptyWindow(m: ColorMap, windows: seq<seq<int>>)
    requires m.Interpolable()
    ensures |Updates(m, windows)| == CountNonEmpty(windows)
    ensures (forall i :: 0 <= i < |windows| ==> windows[i] == []) ==> Updates(m, windows) == []
    decreases |windows|
  {
    if windows != [] {
      OneUpdatePerNonEmptyWindow(m, windows[1..]);
    }
  }

  /** Windows of one reading each give the colours of those readings, in order. */
  lemma {:induction false} SingleReadingWindows(m: ColorMap, windows: seq<seq<int>>)
    requires m.Interpolable()
    requires forall i :: 0 <= i < |windows| ==> |windows[i]| == 1
    ensures |Updates(m, windows)| == |windows|
    ensures forall i :: 0 <= i < |windows| ==> Updates(m, windows)[i] == ColorAt(m, windows[i][0] as real)
    decreases |windows|
  {
    if windows != [] {
      var rest := windows[1..];
      SingleReadingWindows(m, rest);
      var w := windows[0];
      assert w == [w[0]];
      MeanExamples(w[0]);
      assert Updates(m, windows) == [ColorAt(m, w[0] as real)] + Updates(m, rest);
    }
  }

  /** The handle `subscribe` returns; disposing it cuts the pipeline off from the bulb. */
  datatype Subscription = Subscription(disposed: bool)

  /** `PowerBulbController`. */
  class PowerBulbController {
    const bulb: LightBulb
    const colorMap: ColorMap
    var subscription: Option<Subscription>

    constructor (bulb: LightBulb, colorMap: ColorMap)
      ensures this.bulb == bulb && this.colorMap == colorMap && subscription == None
    {
      this.bulb := bulb;
      this.colorMap := colorMap;
      subscription := None;
    }

    /** The pipeline is subscribed and has not been disposed. */
    predicate Subscribed()
      reads this
    {
      subscription.Some? && !subscription.value.disposed
    }

    /** `__enter__`: subscribe the buffered, filtered, averaged values to `Update`. */
    method Enter()
      modifies this
      ensures subscription == Some(Subscription(false))
    {
      subscription := Some(Subscription(false));
    }

    /** `__exit__`: dispose the subscription. */
    method Exit()
      requires subscription.Some?
      modifies this
      ensures subscription == Some(Subscription(true))
    {
      subscription := Some(subscription.value.(disposed := true));
    }

    /** `_update`: send the bulb exactly the colour the map gives for `value`. */
    method Update(value: real)
      requires colorMap.Interpolable()
      modifies bulb
      ensures bulb.colors == old(bulb.colors) + [ColorAt(colorMap, value)]
    {
      var color := GetColor(colorMap, value);
      bulb.SetColor(color);
    }

    /** A window closing: if subscribed and the window is non-empty, update with its mean. */
    method OnWindow(window: seq<int>)
      requires colorMap.Interpolable()
      modifies bulb
      ensures bulb.colors == old(bulb.colors) + if Subscribed() then WindowUpdate(colorMap, window) else []
    {
      if Subscribed() && NonEmpty(window) {
        Update(Mean(window));
      }
    }

    /**
     * Successive windows closing, one every `BUFFER_TIME_MS`. The slicing of
     * the readings into those windows happens before this method: each
     * element of `windows` is what one slice collected.
     */
    method OnWindows(windows: seq<seq<int>>)
      requires colorMap.Interpolable()
      modifies bulb
      ensures bulb.colors == old(bulb.colors) + if Subscribed() then Updates(colorMap, windows) else []
    {
      for i := 0 to |windows|
        invariant bulb.colors == old(bulb.colors) + if Subscribed() then Updates(colorMap, windows[..i]) else []
      {
        assert windows[..i + 1] == windows[..i] + [windows[i]];
        UpdatesAppend(colorMap, windows[..i], [windows[i]]);
        assert Updates(colorMap, [windows[i]]) == WindowUpdate(colorMap, windows[i]) + Updates(colorMap, []);
        OnWindow(windows[i]);
      }
      assert windows[..|windows|] == windows;
    }
  }

  /**
   * A session on the map with stops 1, 2, 3 of colours (1, 1, 1, 1),
   * (2, 2, 2, 2), (3, 3, 3, 3). While entered, windows [1], [2], [3] send
   * the three colours in turn, [1, 2, 3] sends the colour of its mean 2, and
   * three empty windows send nothing. After exit a window [1] sends nothing.
   * `sent` is everything the bulb received.
   */
  method Session() returns (sent: seq<Color>)
    ensures sent == [Color(1.0, 1.0, 1.0, 1.0), Color(2.0, 2.0, 2.0, 2.0), Color(3.0, 3.0, 3.0, 3.0),
                     Color(2.0, 2.0, 2.0, 2.0)]
  {
    var c1, c2, c3 := Color(1.0, 1.0, 1.0, 1.0), Color(2.0, 2.0, 2.0, 2.0), Color(3.0, 3.0, 3.0, 3.0);
    var colorMap := DiscreteColorMap([ColorStop(1.0, c1), ColorStop(2.0, c2), ColorStop(3.0, c3)]);
    var bulb := new LightBulb();
    var controller := new PowerBulbController(bulb, colorMap);
    controller.Enter();
    MeanExamples(1);
    MeanExamples(2);
    MeanExamples(3);
    controller.OnWindow([1]);
    assert bulb.colors == [c1];
    controller.OnWindow([2]);
    assert bulb.colors == [c1, c2];
    controller.OnWindow([3]);
    assert bulb.colors == [c1, c2, c3];
    controller.OnWindow([1, 2, 3]);
    assert bulb.colors == [c1, c2, c3, c2];
    controller.OnWindow([]);
    controller.OnWindow([]);
    controller.OnWindow([]);
    controller.Exit();
    controller.OnWindow([1]);
    sent := bulb.colors;
  }
}

=== FILE: interpolation.dfy ===
/**
 * One-dimensional piecewise-linear interpolation with the semantics of
 * numpy's `interp(x, xp, fp)` called without its `left`/`right` arguments:
 * inside the range of the sample points the value is read off the segment
 * that contains `x`; outside it the value is that of the nearest end point
 * (the function clamps, it never extrapolates).
 */
module Interpolation {

  /** Sample points in strictly increasing order, each compared with its predecessor. */
  predicate StrictlyAscending(xs: seq<real>) {
    forall i :: 0 < i < |xs| ==> xs[i - 1] < xs[i]
  }

  /** The inputs `interp` is defined on: as many values as points, at least one point. */
  predicate Samples(xp: seq<real>, fp: seq<real>) {
    0 < |xp| == |fp| && StrictlyAscending(xp)
  }

  lemma {:induction false} AscendingBetween(xs: seq<real>, i: nat, j: nat)
    requires StrictlyAscending(xs)
    requires i < j < |xs|
    ensures xs[i] < xs[j]
    decreases j - i
  {
    if i + 1 < j {
      AscendingBetween(xs, i + 1, j);
    }
  }

  /** The straight line through (x0, y0) and (x1, y1), evaluated at x the way numpy does. */
  function Lerp(x: real, x0: real, x1: real, y0: real, y1: real): real
    requires x0 < x1
  {
    (y1 - y0) / (x1 - x0) * (x - x0) + y0
  }

  /** numpy's `interp` for one abscissa. */
  function Interp(x: real, xp: seq<real>, fp: seq<real>): real
    requires Samples(xp, fp)
  {
    if x < xp[0] then fp[0]
    else if x >= xp[|xp| - 1] then fp[|fp| - 1]
    else InterpFrom(x, xp, fp, 0)
  }

  /** The segment search for an `x` inside the range, starting at segment `j`. */
  function InterpFrom(x: real, xp: seq<real>, fp: seq<real>, j: nat): real
    requires Samples(xp, fp)
    requires j < |xp| - 1 && xp[j] <= x < xp[|xp| - 1]
    decreases |xp| - j
  {
    if x < xp[j + 1] then Lerp(x, xp[j], xp[j + 1], fp[j], fp[j + 1])
    else InterpFrom(x, xp, fp, j + 1)
  }

  lemma LerpAtEnds(x0: real, x1: real, y0: real, y1: real)
    requires x0 < x1
    ensures Lerp(x0, x0, x1, y0, y1) == y0
    ensures Lerp(x1, x0, x1, y0, y1) == y1
  {
  }

  lemma {:induction false} InterpFromOnSegment(x: real, xp: seq<real>, fp: seq<real>, j: nat, i: nat)
    requires Samples(xp, fp)
    requires j < |xp| - 1 && xp[j] <= x < xp[|xp| - 1]
    requires j <= i < |xp| - 1 && xp[i] <= x <= xp[i + 1]
    ensures InterpFrom(x, xp, fp, j) == Lerp(x, xp[i], xp[i + 1], fp[i], fp[i + 1])
    decreases |xp| - j
  {
    if j < i {
      if j + 1 < i {
        AscendingBetween(xp, j + 1, i);
      }
      InterpFromOnSegment(x, xp, fp, j + 1, i);
    } else if x == xp[i + 1] {
      // `x` is the right end of segment i, so the search moves to segment i + 1,
      // whose line starts at the same point.
      LerpAtEnds(xp[i], xp[i + 1], fp[i], fp[i + 1]);
      LerpAtEnds(xp[i + 1], xp[i + 2], fp[i + 1], fp[i + 2]);
      assert InterpFrom(x, xp, fp, i + 1) == fp[i + 1];
    }
  }

  /** Between two adjacent sample points, each value is the linear interpolation of its neighbours. */
  lemma InterpOnSegment(x: real, xp: seq<real>, fp: seq<real>, i: nat)
    requires Samples(xp, fp)
    requires i < |xp| - 1 && xp[i] <= x <= xp[i + 1]
    ensures Interp(x, xp, fp) == Lerp(x, xp[i], xp[i + 1], fp[i], fp[i + 1])
  {
    AscendingBetween(xp, 0, i + 1);
    if i + 1 < |xp| - 1 {
      AscendingBetween(xp, i + 1, |xp| - 1);
    }
    if x == xp[|xp| - 1] {
      assert i + 1 == |xp| - 1;
      LerpAtEnds(xp[i], xp[i + 1], fp[i], fp[i + 1]);
    } else {
      if i > 0 {
        AscendingBetween(xp, 0, i);
      }
      InterpFromOnSegment(x, xp, fp, 0, i);
    }
  }

  /** At a sample point, interpolation returns exactly the sample value. */
  lemma InterpAtSample(xp: seq<real>, fp: seq<real>, i: nat)
    requires Samples(xp, fp) && i < |xp|
    ensures Interp(xp[i], xp, fp) == fp[i]
  {
    if i < |xp| - 1 {
      InterpOnSegment(xp[i], xp, fp, i);
      LerpAtEnds(xp[i], xp[i + 1], fp[i], fp[i + 1]);
    } else if 0 < i {
      AscendingBetween(xp, 0, i);
    }
  }

  /** Outside the range of the sample points the value is clamped to the nearest end value. */
  lemma InterpClamps(x: real, xp: seq<real>, fp: seq<real>)
    requires Samples(xp, fp)
    ensures x <= xp[0] ==> Interp(x, xp, fp) == fp[0]
    ensures x >= xp[|xp| - 1] ==> Interp(x, xp, fp) == fp[|fp| - 1]
  {
    if 0 < |xp| - 1 {
      AscendingBetween(xp, 0, |xp| - 1);
    }
    if x == xp[0] {
      InterpAtSample(xp, fp, 0);
    }
  }

  /** The least of a non-empty sequence. */
  function Min(s: seq<real>): (m: real)
    requires |s| > 0
    ensures forall i :: 0 <= i < |s| ==> m <= s[i]
    ensures exists i :: 0 <= i < |s| && m == s[i]
  {
    if |s| == 1 then s[0]
    else var m := Min(s[1..]); if s[0] <= m then s[0] else m
  }

  /** The greatest of a non-empty sequence. */
  function Max(s: seq<real>): (m: real)
    requires |s| > 0
    ensures forall i :: 0 <= i < |s| ==> s[i] <= m
    ensures exists i :: 0 <= i < |s| && m == s[i]
  {
    if |s| == 1 then s[0]
    else var m := Max(s[1..]); if m <= s[0] then s[0] else m
  }

  lemma MulLeft(a: real, b: real, c: real)
    requires 0.0 <= a && b <= c
    ensures a * b <= a * c
  {
    assert a * c - a * b == a * (c - b);
  }

  lemma QuotientSign(a: real, b: real)
    requires 0.0 < b
    ensures 0.0 <= a ==> 0.0 <= a / b
    ensures a <= 0.0 ==> a / b <= 0.0
  {
  }

  lemma LerpBetween(x: real, x0: real, x1: real, y0: real, y1: real)
    requires x0 <= x <= x1 && x0 < x1
    ensures y0 <= y1 ==> y0 <= Lerp(x, x0, x1, y0, y1) <= y1
    ensures y1 <= y0 ==> y1 <= Lerp(x, x0, x1, y0, y1) <= y0
  {
    var slope := (y1 - y0) / (x1 - x0);
    assert slope * (x1 - x0) == y1 - y0;
    QuotientSign(y1 - y0, x1 - x0);
    if y0 <= y1 {
      MulLeft(slope, 0.0, x - x0);
      MulLeft(slope, x - x0, x1 - x0);
    } else {
      MulLeft(-slope, 0.0, x - x0);
      MulLeft(-slope, x - x0, x1 - x0);
    }
  }

  /**
   * Interpolation never leaves the range of the sample values: there is no
   * extrapolation beyond the first or last sample point.
   */
  lemma InterpWithinSamples(x: real, xp: seq<real>, fp: seq<real>)
    requires Samples(xp, fp)
    ensures Min(fp) <= Interp(x, xp, fp) <= Max(fp)
  {
    if xp[0] <= x < xp[|xp| - 1] {
      var i := SegmentOf(x, xp, 0);
      InterpOnSegment(x, xp, fp, i);
      LerpBetween(x, xp[i], xp[i + 1], fp[i], fp[i + 1]);
    }
  }

  /** The segment that holds an `x` inside the range, searched from segment `j`. */
  function SegmentOf(x: real, xp: seq<real>, j: nat): (i: nat)
    requires StrictlyAscending(xp)
    requires j < |xp| - 1 && xp[j] <= x < xp[|xp| - 1]
    ensures j <= i < |xp| - 1 && xp[i] <= x < xp[i + 1]
    decreases |xp| - j
  {
    if x < xp[j + 1] then j else SegmentOf(x, xp, j + 1)
  }
}

=== FILE: net.dfy ===
/**
 * The ANT+ side of the pipeline: decoding broadcast frames from a bicycle
 * power meter or a heart-rate strap into readings, pushing them onto a value
 * stream that completes itself after 30 s of silence, and the tables that
 * turn a device type name into a source or an ANT+ device type number.
 */
module Net {
  import opened Wrappers

  type Byte = b: int | 0 <= b < 256

  /** Page number of the Bicycle Power "Standard Power-Only" main data page. */
  const STANDARD_POWER_ONLY_PAGE: Byte := 0x10
  /** ANT+ device type numbers. */
  const BIKE_POWER_DEVICE_TYPE: int := 11
  const HEART_RATE_DEVICE_TYPE: int := 120
  /** How long the value stream waits for a reading before it completes. */
  const TIMEOUT_MS: nat := 30 * 1000

  // ----- Frame decoding -----

  /** The two kinds of event callback: power meter and heart-rate monitor. */
  datatype DeviceKind = Power | HeartRate

  /**
   * A message delivered by the ANT node. A broadcast data payload is the
   * channel number followed by the eight data bytes of the page, so data
   * byte i is payload byte i + 1.
   */
  datatype Message = ChannelBroadcastData(payload: seq<Byte>) | OtherMessage

  /** The payload is long enough for the indexing the decoder of `kind` does. */
  predicate Indexable(kind: DeviceKind, payload: seq<Byte>) {
    match kind
    case Power => |payload| >= 2
    case HeartRate => |payload| >= 1
  }

  /**
   * `can_decode`: a power frame must carry the Standard Power-Only page; every
   * heart-rate frame is accepted, whatever its length. Only the power check
   * indexes the payload.
   */
  function CanDecode(kind: DeviceKind, payload: seq<Byte>): (ok: bool)
    requires kind == Power ==> |payload| >= 2
    ensures kind == HeartRate ==> ok
  {
    match kind
    case Power => payload[1] == STANDARD_POWER_ONLY_PAGE
    case HeartRate => true
  }

  /**
   * A power frame (channel number, page number, seven more data bytes) is
   * decoded iff its page is the Standard Power-Only page; any heart-rate
   * frame is decoded.
   */
  lemma FrameAccepted(channel: Byte, page: Byte, data: seq<Byte>)
    ensures CanDecode(Power, [channel, page] + data) <==> page == STANDARD_POWER_ONLY_PAGE
    ensures CanDecode(HeartRate, [channel, page] + data)
  {
    assert ([channel, page] + data)[1] == page;
  }

  /** Two bytes, low byte first, read as a signed 16-bit integer (`struct.unpack('h', …)` on a little-endian host). */
  function Int16(lo: Byte, hi: Byte): (v: int)
    ensures -0x8000 <= v < 0x8000
    ensures v % 0x10000 == lo + 0x100 * hi
    ensures v < 0 <==> hi >= 0x80
  {
    var raw := lo + 0x100 * hi;
    if raw >= 0x8000 then raw - 0x10000 else raw
  }

  /** The bytes a signed 16-bit integer is sent as, low byte first. */
  function Int16Bytes(v: int): (bytes: (Byte, Byte))
    requires -0x8000 <= v < 0x8000
  {
    var raw := if v < 0 then v + 0x10000 else v;
    (raw % 0x100, raw / 0x100)
  }

  /** Reading two bytes as a signed 16-bit integer is a bijection with their encoding. */
  lemma Int16RoundTrip(v: int, lo: Byte, hi: Byte)
    requires -0x8000 <= v < 0x8000
    ensures Int16(Int16Bytes(v).0, Int16Bytes(v).1) == v
    ensures Int16Bytes(Int16(lo, hi)) == (lo, hi)
  {
  }

  /**
   * `decode`: the instantaneous power in the last two bytes (data bytes 6
   * and 7, signed, so raw values from 0x8000 up come out negative), or the
   * computed heart rate in the last byte (data byte 7).
   */
  function Decode(kind: DeviceKind, payload: seq<Byte>): (value: int)
    requires Indexable(kind, payload)
    ensures kind == Power ==> -0x8000 <= value < 0x8000
    ensures kind == HeartRate ==> 0 <= value < 0x100
  {
    match kind
    case Power => Int16(payload[|payload| - 2], payload[|payload| - 1])
    case HeartRate => payload[|payload| - 1]
  }

  /** A power frame decodes to the power its sender encoded in its last two bytes. */
  lemma PowerDecodesEncoded(prefix: seq<Byte>, watts: int)
    requires -0x8000 <= watts < 0x8000
    ensures var payload := prefix + [Int16Bytes(watts).0, Int16Bytes(watts).1];
      Decode(Power, payload) == watts
  {
    var payload := prefix + [Int16Bytes(watts).0, Int16Bytes(watts).1];
    assert payload[|payload| - 2] == Int16Bytes(watts).0 && payload[|payload| - 1] == Int16Bytes(watts).1;
    Int16RoundTrip(watts, 0, 0);
  }

  // ----- The value stream with a dead man's switch -----

  /** A periodic timer from the scheduler, due next at `due`; `live` until it is disposed. */
  datatype Timer = Timer(due: nat, live: bool)

  /** What the stream's subscribers observe. */
  datatype Notification = NextValue(value: int) | Completion

  /**
   * The state of a `TimeoutSubject` on a virtual clock: the current time, the
   * current timer, the timers disposed so far, whether the subject has
   * stopped, and everything its subscribers have been told.
   */
  datatype SubjectState = SubjectState(now: nat, timer: Option<Timer>, disposed: seq<Timer>,
                                       stopped: bool, observed: seq<Notification>)

  /** A value pushed onto the stream, or the virtual clock moving forward. */
  datatype Event = Push(value: int) | Advance(ms: nat)

  /** `_reset`: dispose the current timer, if any, and arm a fresh one for `TIMEOUT_MS` from now. */
  function Arm(s: SubjectState): SubjectState {
    s.(timer := Some(Timer(s.now + TIMEOUT_MS, true)),
       disposed := if s.timer.Some? then s.disposed + [s.timer.value.(live := false)] else s.disposed)
  }

  /** Forwarding a value: subscribers see it unless the subject has stopped. */
  function Forward(s: SubjectState, value: int): SubjectState {
    if s.stopped then s else s.(observed := s.observed + [NextValue(value)])
  }

  /** `_timeout`: complete the subject; a stopped subject ignores further completions. */
  function Complete(s: SubjectState): SubjectState {
    if s.stopped then s else s.(stopped := true, observed := s.observed + [Completion])
  }

  /** The first due time of a periodic timer (period `TIMEOUT_MS`, next due at `due`) later than `t`. */
  function NextDue(due: nat, t: nat): (next: nat)
    requires due <= t
    ensures t < next <= t + TIMEOUT_MS && (next - due) % TIMEOUT_MS == 0
  {
    due + TIMEOUT_MS * ((t - due) / TIMEOUT_MS + 1)
  }

  /** One event: a push re-arms the timer and then forwards the value; time passing fires a due timer. */
  function Step(s: SubjectState, e: Event): SubjectState {
    match e
    case Push(value) => Forward(Arm(s), value)
    case Advance(ms) =>
      var t := s.now + ms;
      if s.timer.Some? && s.timer.value.live && s.timer.value.due <= t then
        Complete(s.(now := t, timer := Some(s.timer.value.(due := NextDue(s.timer.value.due, t)))))
      else
        s.(now := t)
  }

  /** Several events, in order. */
  function Run(s: SubjectState, events: seq<Event>): SubjectState
    decreases |events|
  {
    if events == [] then s else Run(Step(s, events[0]), events[1..])
  }

  /** The state right after construction: a timer armed at time 0, nothing observed. */
  function InitialState(): SubjectState {
    Arm(SubjectState(0, None, [], false, []))
  }

  /** Exactly one timer is live, the current one, and it is pending. */
  predicate OneLiveTimer(s: SubjectState) {
    && s.timer.Some? && s.timer.value.live && s.now < s.timer.value.due
    && forall i :: 0 <= i < |s.disposed| ==> !s.disposed[i].live
  }

  /** Subscribers see values, then at most one completion, which comes last and only once stopped. */
  predicate Protocol(s: SubjectState) {
    && (forall i :: 0 <= i < |s.observed| - 1 ==> s.observed[i].NextValue?)
    && (s.stopped <==> |s.observed| > 0 && s.observed[|s.observed| - 1].Completion?)
  }

  predicate Valid(s: SubjectState) {
    OneLiveTimer(s) && Protocol(s)
  }

  lemma InitialStateValid()
    ensures Valid(InitialState()) && InitialState().timer.value.due == TIMEOUT_MS
  {
  }

  lemma StepKeepsValid(s: SubjectState, e: Event)
    requires Valid(s)
    ensures Valid(Step(s, e))
  {
    var s' := Step(s, e);
    if e.Push? && !s.stopped {
      assert s'.observed == s.observed + [NextValue(e.value)];
    }
  }

  /** Every run keeps exactly one live timer and the subscriber protocol. */
  lemma {:induction false} RunKeepsValid(s: SubjectState, events: seq<Event>)
    requires Valid(s)
    ensures Valid(Run(s, events))
    decreases |events|
  {
    if events != [] {
      StepKeepsValid(s, events[0]);
      RunKeepsValid(Step(s, events[0]), events[1..]);
    }
  }

  /** Once completed, the stream tells its subscribers nothing more, whatever is pushed. */
  lemma {:induction false} StoppedIsFinal(s: SubjectState, events: seq<Event>)
    requires s.stopped
    ensures Run(s, events).stopped && Run(s, events).observed == s.observed
    decreases |events|
  {
    if events != [] {
      StoppedIsFinal(Step(s, events[0]), events[1..]);
    }
  }

  /** Every push re-arms the timer for `TIMEOUT_MS` from the moment of the push and disposes the old one. */
  lemma PushRearms(s: SubjectState, value: int)
    requires Valid(s)
    ensures var s' := Step(s, Push(value));
      && s'.timer == Some(Timer(s.now + TIMEOUT_MS, true))
      && s'.disposed == s.disposed + [s.timer.value.(live := false)]
      && s'.observed == if s.stopped then s.observed else s.observed + [NextValue(value)]
  {
  }

  /** True when every event is the clock moving: nothing is pushed. */
  predicate Silent(events: seq<Event>) {
    forall i :: 0 <= i < |events| ==> events[i].Advance?
  }

  /**
   * While nothing is pushed, the stream completes exactly when the clock
   * reaches the due time of the timer armed by the last push; until then it
   * says nothing, afterwards it has said "completed" once.
   */
  lemma {:induction false} SilenceCompletes(s: SubjectState, events: seq<Event>)
    requires Valid(s) && !s.stopped && Silent(events)
    ensures var s' := Run(s, events);
      && (s'.stopped <==> s'.now >= s.timer.value.due)
      && s'.observed == if s'.stopped then s.observed + [Completion] else s.observed
    decreases |events|
  {
    if events != [] {
      var s1 := Step(s, events[0]);
      StepKeepsValid(s, events[0]);
      assert Silent(events[1..]);
      if s1.stopped {
        StoppedIsFinal(s1, events[1..]);
        RunNeverRewindsClock(s1, events[1..]);
      } else {
        SilenceCompletes(s1, events[1..]);
      }
    }
  }

  /** The virtual clock never goes backwards. */
  lemma {:induction false} RunNeverRewindsClock(s: SubjectState, events: seq<Event>)
    ensures s.now <= Run(s, events).now
    decreases |events|
  {
    if events != [] {
      RunNeverRewindsClock(Step(s, events[0]), events[1..]);
    }
  }

  /** A push followed by a silence of `ms`: the stream completes exactly when `ms` reaches the timeout. */
  lemma TimeoutAfterPush(s: SubjectState, value: int, ms: nat)
    requires Valid(s) && !s.stopped
    ensures var s' := Run(s, [Push(value), Advance(ms)]);
      && (s'.stopped <==> ms >= TIMEOUT_MS)
      && s'.observed == s.observed + [NextValue(value)] + (if ms >= TIMEOUT_MS then [Completion] else [])
  {
    var events := [Push(value), Advance(ms)];
    assert events[1..] == [Advance(ms)];
    assert Run(s, events) == Run(Step(s, Push(value)), [Advance(ms)]);
  }

  /** `TimeoutSubject`: a subject whose every `on_next` first re-arms a 30 s timer; if it fires, the subject completes. */
  class TimeoutSubject {
    var now: nat
    var timer: Option<Timer>
    var disposed: seq<Timer>
    var stopped: bool
    var observed: seq<Notification>

    function State(): SubjectState
      reads this
    {
      SubjectState(now, timer, disposed, stopped, observed)
    }

    constructor ()
      ensures State() == InitialState()
    {
      now, timer, disposed, stopped, observed := 0, None, [], false, [];
      new;
      Reset();
    }

    method OnNext(value: int)
      modifies this
      ensures State() == Step(old(State()), Push(value))
    {
      Reset();
      if !stopped {
        observed := observed + [NextValue(value)];
      }
    }

    /** `_reset`. */
    method Reset()
      modifies this
      ensures State() == Arm(old(State()))
    {
      if timer.Some? {
        disposed := disposed + [timer.value.(live := false)];
      }
      timer := Some(Timer(now + TIMEOUT_MS, true));
    }

    /** `_timeout`: the timer fired; complete the subject. */
    method Timeout()
      modifies this
      ensures State() == Complete(old(State()))
    {
      if !stopped {
        stopped := true;
        observed := observed + [Completion];
      }
    }

    /** The scheduler moves the virtual clock by `ms`, firing the timer if it falls due. */
    method AdvanceBy(ms: nat)
      modifies this
      ensures State() == Step(old(State()), Advance(ms))
    {
      now := now + ms;
      if timer.Some? && timer.value.live && timer.value.due <= now {
        timer := Some(timer.value.(due := NextDue(timer.value.due, now)));
        Timeout();
      }
    }
  }

  // ----- Data sources and their callbacks -----

  /** `AntDataSource`: owns the value stream its callback pushes readings onto. */
  class AntDataSource {
    const kind: DeviceKind
    const values: TimeoutSubject
    var callback: AntChannelEventCallback?

    constructor (kind: DeviceKind)
      ensures this.kind == kind && fresh(values) && values.State() == InitialState()
      ensures callback != null && fresh(callback) && callback.kind == kind && callback.source == this
    {
      this.kind := kind;
      values := new TimeoutSubject();
      new;
      callback := new AntChannelEventCallback(kind, this);
    }
  }

  /** `AntChannelEventCallback` with the power or heart-rate decoder. */
  class AntChannelEventCallback {
    const kind: DeviceKind
    const source: AntDataSource

    constructor (kind: DeviceKind, source: AntDataSource)
      ensures this.kind == kind && this.source == source
    {
      this.kind := kind;
      this.source := source;
    }

    /**
     * `process`: drop anything but broadcast data and frames the decoder
     * does not accept; otherwise push exactly one decoded reading.
     */
    method Process(msg: Message)
      requires msg.ChannelBroadcastData? ==> Indexable(kind, msg.payload)
      modifies source.values
      ensures if msg.ChannelBroadcastData? && CanDecode(kind, msg.payload)
        then source.values.State() == Step(old(source.values.State()), Push(Decode(kind, msg.payload)))
        else source.values.State() == old(source.values.State())
    {
      if !msg.ChannelBroadcastData? {
        return;
      }
      var payload := msg.payload;
      if !CanDecode(kind, payload) {
        return;
      }
      var value := Decode(kind, payload);
      source.values.OnNext(value);
    }
  }

  datatype NetError = UnsupportedDeviceType(deviceType: string)

  /** `AntDataSourceFactory.create`: `'hr'` and `'power'` are the only device types with a source. */
  method CreateDataSource(deviceType: string) returns (r: Result<AntDataSource, NetError>)
    ensures r.Err? <==> deviceType != "hr" && deviceType != "power"
    ensures r.Err? ==> r.error == UnsupportedDeviceType(deviceType)
    ensures r.Ok? ==> fresh(r.value) && fresh(r.value.values) && r.value.values.State() == InitialState()
    ensures r.Ok? ==> r.value.kind == if deviceType == "hr" then HeartRate else Power
    ensures r.Ok? ==>
      && r.value.callback != null && fresh(r.value.callback)
      && r.value.callback.kind == r.value.kind && r.value.callback.source == r.value
  {
    if deviceType == "hr" {
      var source := new AntDataSource(HeartRate);
      return Ok(source);
    } else if deviceType == "power" {
      var source := new AntDataSource(Power);
      return Ok(source);
    }
    return Err(UnsupportedDeviceType(deviceType));
  }

  /** A device type as callers give it: a name or an ANT+ device type number. */
  datatype DeviceType = Named(name: string) | Number(number: int)

  /** `AntChannelFactory.get_device_type`: names `'hr'` and `'power'` become numbers, anything else passes through. */
  function GetDeviceType(deviceType: DeviceType): (t: DeviceType)
    ensures t == deviceType || (deviceType.Named? && deviceType.name in {"hr", "power"} && t.Number?)
  {
    match deviceType
    case Named("hr") => Number(HEART_RATE_DEVICE_TYPE)
    case Named("power") => Number(BIKE_POWER_DEVICE_TYPE)
    case _ => deviceType
  }

  /** The names agree with the numbers the power and heart-rate channels are created with, and translating twice changes nothing. */
  lemma DeviceTypeTable(deviceType: DeviceType)
    ensures GetDeviceType(Named("hr")) == Number(120) && GetDeviceType(Named("power")) == Number(11)
    ensures GetDeviceType(GetDeviceType(deviceType)) == GetDeviceType(deviceType)
  {
  }
}

=== FILE: wrappers.dfy ===
/** Optional values and results with an error, shared by the other modules. */
module Wrappers {

  datatype Option<+T> = None | Some(value: T)

  /** The outcome of an operation that either builds a value or raises an error. */
  datatype Result<+T, +E> = Ok(value: T) | Err(error: E)
}
